=== FILE: README.md ===
# Stock ledger of the bonded-warehouse inventory service

A Dafny model of the stock ledger of the Django `inventory` application and of
the code that drives it.

- **Ledger** (`ledger.dfy`): the `Stock` table is a map from a
  (product, warehouse) pair to an integer quantity, so each pair has at most
  one row. `StockMovement.apply` is the pure function `Apply`: get-or-create
  the row at 0, then add the quantity for `IN` and subtract it otherwise.
  `ApplyAll` replays a sequence of movements. `SumIn` and `SumOut` are the
  independent reference totals that the replay is proved against.
- **Catalog** (`catalog.dfy`): the relational store, i.e. suppliers,
  categories, products, warehouses, the ledger and the movement table. It
  states the integrity the database keeps (`Valid`: foreign keys resolve,
  category names and SKUs are unique). It models saving and applying a
  movement, and the `on_delete` rules on the product, stock and movement
  foreign keys: PROTECT, SET_NULL and CASCADE.
- **Api** (`api.dfy`): the movement and stock view sets.
  - Serializer validation collects every failing field.
  - The default create (`perform_create`) and the `adjust` action both
    validate, then save, then apply exactly once.
  - Movement update and destroy leave the ledger alone.
  - The stock collection is read-only.
  - `Run` processes a sequence of requests, and the final ledger is proved to
    be a replay of the created movements.
- **SeedCommand** (`seed.dfy`): the `seed_inventory` management command.
  - `get_or_create` for the default supplier, category and warehouse and for
    three products by SKU, followed by one inbound movement of 100 per product.
    `get_or_create` raises `MultipleObjectsReturned` when several rows match.
  - A run is not atomic: a failure keeps whatever was created before it.
  - Repeated runs are proved to keep the master data and to add 100 per run
    to each seeded pair, and nothing to any other pair.
- **Results** (`results.dfy`): `Option` and `Result`.

Two facts about the code shape the data model:

- A movement quantity is a `nat`. `PositiveIntegerField`
  (inventory/models.py:74) admits 0, and its upper end is 2147483647.
- `Supplier.name` and `Warehouse.name` are not unique, so the seed's lookups
  of those can raise. `Category.name` and `Product.sku` are unique, so the
  other lookups cannot.

## Model

| member | source | states |
|---|---|---|
| Ledger.Apply | inventory/models.py:77-83 | An IN movement adds exactly q to its pair and any other type subtracts exactly q. A missing row counts as 0, so a first IN gives q and a first OUT gives -q. An OUT larger than the on-hand quantity is accepted and goes negative. The row set grows by exactly the movement's pair, and every other row keeps its value. |
| Ledger.ApplyFrame | inventory/models.py:78-83 | For any other pair, the quantity and whether a row exists are the same before and after the apply. |
| Ledger.ApplyAll | inventory/models.py:77-83 | Replaying movements leaves rows for exactly the starting pairs plus the pairs the movements touch. |
| Ledger.ApplyAllNet | inventory/models.py:77-83 | Replaying movements once each shifts every pair by its inbound total minus its outbound total. |
| Ledger.ReplayFromEmpty | inventory/models.py:77-83 | From an empty ledger there is a row for exactly each touched pair, holding sum(IN) - sum(OUT) of the movements at that pair. |
| Ledger.SumsPermutation | inventory/models.py:79-82 | The inbound and outbound totals depend only on the multiset of movements. |
| Ledger.ApplyAllOrderIndependent | inventory/models.py:77-83 | Any two orderings of the same movements produce the same ledger. |
| Ledger.SumsRepeat | inventory/models.py:79-82 | n copies of a movement contribute n*q to their own pair's IN or OUT total and nothing elsewhere. |
| Ledger.ApplyRepeated | inventory/models.py:77-83 | Applying the same movement n times shifts its pair by n*q (+ for IN, - for OUT) and leaves other pairs alone, so apply is not idempotent. |
| Ledger.ApplyTwiceDiffers | inventory/models.py:77-83 | A second application of a movement with q > 0 changes the ledger again, by a total of 2*q. |
| Catalog.SaveAndApply | inventory/views.py:50-52 | The movement is stored under a key not used before and applied exactly once. Master data is unchanged, and integrity is kept when its product and warehouse exist. |
| Catalog.ReplaceMovement | inventory/views.py:46-48 | Updating a stored movement rewrites only that record: the ledger is neither re-applied nor reverted. |
| Catalog.RemoveMovement | inventory/views.py:46-48 | Deleting a movement removes exactly that record and leaves the ledger as it was. |
| Catalog.DeleteCategory | inventory/models.py:33 | PROTECT: the delete is refused exactly when some product refers to the category. Otherwise only that category is removed: the other categories keep their values, and suppliers, products, warehouses, ledger and movements are untouched. |
| Catalog.DeleteSupplier | inventory/models.py:34 | SET_NULL: the supplier is removed, every product that pointed at it is kept with its supplier cleared and all other fields equal, and every other product is unchanged. The other suppliers keep their values, and categories, warehouses, ledger and movements are untouched. |
| Catalog.DeleteProduct | inventory/models.py:52-53 | CASCADE: a stock row is kept iff it is not the product's, and a movement is kept iff it is not of the product (line 71). Surviving products, kept stock rows and kept movements keep their values, and suppliers, categories and warehouses are untouched. |
| Catalog.DeleteWarehouse | inventory/models.py:52-53 | CASCADE: a stock row is kept iff it is not at the warehouse, and a movement is kept iff it is not at the warehouse (line 72). Surviving warehouses, kept stock rows and kept movements keep their values, and suppliers, categories and products are untouched. |
| Catalog.DeleteCategoryKeepsValid | inventory/models.py:33 | A permitted category delete leaves every foreign key resolvable. |
| Catalog.DeleteSupplierKeepsValid | inventory/models.py:34 | After SET_NULL no product refers to the deleted supplier, and SKUs stay unique. |
| Catalog.DeleteProductKeepsValid | inventory/models.py:52-53 | After the cascade no stock row or movement refers to the deleted product. |
| Catalog.DeleteWarehouseKeepsValid | inventory/models.py:52-53 | After the cascade no stock row or movement refers to the deleted warehouse. |
| Api.ParseCodeRoundTrip | inventory/models.py:64-73 | The `movement_type` choices are exactly 'IN' and 'OUT'. Parsing inverts the stored code and rejects every other string. |
| Api.Validate | inventory/models.py:71-74 | A payload is accepted iff its product and warehouse keys exist, its type is a listed choice and its quantity lies between 0 and 2147483647. A rejection names exactly the failing fields, and an accepted payload becomes the movement it describes. |
| Api.PerformCreate | inventory/views.py:50-52 | The validated movement is saved under a fresh key and applied exactly once, answering 201 with that movement. |
| Api.Create | inventory/views.py:46-52 | Default create: an invalid payload answers 400 with the store unchanged. A valid one answers 201, stores the movement under a fresh key and applies it once. Either way master data is unchanged and integrity is kept. |
| Api.Adjust | inventory/views.py:54-60 | `adjust` answers 400 with nothing saved or applied iff validation fails. Otherwise it answers 201 with the created movement, stored under a fresh key and applied once. Either way master data is unchanged and integrity is kept. |
| Api.AdjustMatchesCreate | inventory/views.py:50-60 | For every payload, `adjust` and the default create give the same response and the same store, so in particular the same ledger. |
| Api.Handle | inventory/views.py:41-60 | Any write to the stock collection answers 405 with the store unchanged. The ledger changes only when a movement is created, and then by exactly one apply of it. Update, destroy and reads leave the ledger alone, and integrity and master data are kept. |
| Api.Run | inventory/views.py:41-60 | Any sequence of requests keeps integrity and master data and answers every request. |
| Api.RunIsReplayOfCreated | inventory/views.py:46-60 | After any sequence of requests, the ledger is the initial one with each created movement applied once, in creation order. |
| Api.RunFromEmptyLedger | inventory/views.py:46-60 | Starting with no stock rows, every pair holds sum(IN) - sum(OUT) of the movements created through the API. |
| SeedCommand.GetOrCreate | inventory/management/commands/seed_inventory.py:9-11 | `get_or_create` raises iff more than one row matches. It creates iff none matches, and then inserts exactly the new row under the next key. Otherwise the table is unchanged. Either way the returned key is the only matching row. |
| SeedCommand.FetchSupplier | inventory/management/commands/seed_inventory.py:9 | Fails iff there are several "Default Supplier" rows. On success there is exactly one, existing rows are kept, and an existing one means nothing changes. With none, the table gains exactly one new "Default Supplier" row under a fresh key. |
| SeedCommand.FetchCategory | inventory/management/commands/seed_inventory.py:10 | Never fails, because category names are unique. It leaves exactly one "General" category and changes nothing if one existed. Otherwise the table gains exactly that one row under a fresh key. |
| SeedCommand.FetchWarehouse | inventory/management/commands/seed_inventory.py:11 | Fails iff there are several ("Main Warehouse", "HQ") rows. On success there is exactly one, and an existing one means nothing changes. With none, the table gains exactly one ("Main Warehouse", "HQ") row under a fresh key. |
| SeedCommand.FetchProduct | inventory/management/commands/seed_inventory.py:19-27 | Never fails, because SKUs are unique. It leaves exactly one product with the SKU: an existing product is kept as it is and nothing changes. Otherwise the table gains exactly one product, built from the defaults, under a fresh key. |
| SeedCommand.SeedItem | inventory/management/commands/seed_inventory.py:19-34 | One loop pass stores one new movement (the product, the warehouse, IN, 100) and applies it once. Suppliers, categories and warehouses are untouched. The products table is unchanged if the SKU existed, and otherwise gains exactly the one default product. |
| SeedCommand.SeedItems | inventory/management/commands/seed_inventory.py:18-34 | The loop keeps integrity and the other master data, extends the products and movements, and every movement it adds is an IN of 100 at the seeded warehouse. |
| SeedCommand.SeedItemsReceipts | inventory/management/commands/seed_inventory.py:18-34 | The loop creates exactly one movement per item, in order, under fresh and pairwise different keys, and no other movement. Each is an IN of 100 at the seeded warehouse, for the one product with that item's SKU. |
| SeedCommand.SeedReceipts | inventory/management/commands/seed_inventory.py:8-34 | A successful run creates exactly three movements, one per seeded SKU: an IN of 100 of the product with that SKU at the one "Main Warehouse"/"HQ" warehouse, each under a fresh key. |
| SeedCommand.Seed | inventory/management/commands/seed_inventory.py:8-34 | A run raises iff the supplier or warehouse lookup matches several rows. A raising run has touched no stock, movements, products or warehouses, and it keeps every supplier and category row that existed before, unchanged. Rows created before the raise are not rolled back, because the command runs without a transaction. |
| SeedCommand.SeedItemsNewProducts | inventory/management/commands/seed_inventory.py:18-27 | Every product the loop creates has one of the listed SKUs. |
| SeedCommand.SeedAddsOnlySeedRows | inventory/management/commands/seed_inventory.py:8-27 | A successful run keeps every existing supplier, category, warehouse and product row, and each row it adds is the default supplier, the "General" category, the seeded warehouse or a product with a seeded SKU. |
| SeedCommand.SeedItemsStock | inventory/management/commands/seed_inventory.py:18-34 | For distinct SKUs, the loop adds exactly 100 to each (listed product, warehouse) pair, creates rows only for those pairs, and changes nothing else. |
| SeedCommand.ItemsDistinct | inventory/management/commands/seed_inventory.py:13-17 | SKU-001, SKU-002 and SKU-003 are pairwise distinct. |
| SeedCommand.SeedStock | inventory/management/commands/seed_inventory.py:28-34 | A successful run adds exactly 100 at each (seeded SKU, seeded warehouse) pair and touches no other pair's quantity or presence. |
| SeedCommand.SeedEstablishes | inventory/management/commands/seed_inventory.py:9-27 | After a successful run there is exactly one default supplier, one "General" category, one seeded warehouse and one product per seeded SKU. |
| SeedCommand.SeedIdempotentOnMasterData | inventory/management/commands/seed_inventory.py:9-27 | Re-running on a seeded store succeeds and leaves suppliers, categories, products and warehouses exactly as they were. |
| SeedCommand.SeedAgain | inventory/management/commands/seed_inventory.py:8-34 | One more run on a seeded store keeps it seeded and adds 100 to each seeded pair, and nothing to any other pair. |
| SeedCommand.RepeatedSeed | inventory/management/commands/seed_inventory.py:8-34 | n further runs on a seeded store all succeed, keep the master data, and add 100*n to each seeded pair and nothing elsewhere. |
| SeedCommand.RunsAfterFirst | inventory/management/commands/seed_inventory.py:8-34 | If the first run succeeds, m+1 runs leave a seeded store in which each seeded pair has gained 100*(m+1) and no other pair has changed. |
| SeedCommand.SeedFromEmpty | inventory/management/commands/seed_inventory.py:8-34 | On an empty database, m+1 runs leave exactly one row per seeded record, 100*(m+1) at each seeded SKU in "Main Warehouse", and no stock anywhere else. |

## Left out

- Persistence, transactions, timestamps (`auto_now`, `auto_now_add`) and `__str__` are not modelled. The store is an immutable value and each operation is one atomic step.
- Concurrency is not modelled. Two requests racing on the read-modify-write in `apply` are outside a model that handles requests one at a time.
- Decimal fields (`unit_price`, `customs_value`, the seed prices) are left out. They take no part in the ledger.
- Free-text and optional movement fields (`reference`, `reason`, `document_number`, `document_date`, `remarks`, and the declaration links at inventory/models.py:169-174) are left out. They are stored and never read by the ledger.
- The compliance models (HSCode, BondLicense, ImportDeclaration, ExportDeclaration, IOCO, UOM) and their foreign keys are left out, including the CASCADE from IOCO to Product and the PROTECT from Product to HSCode.
- Catalog.DeleteSupplier: the PROTECT from ImportDeclaration to Supplier (inventory/models.py:121) is not modelled. So the model refuses a supplier delete only when the supplier does not exist, although the source raises ProtectedError and deletes nothing while an import declaration refers to the supplier.
- Catalog.DeleteWarehouse: the CASCADE from BondLicense to Warehouse (inventory/models.py:100) is not modelled. So the model never refuses a warehouse delete, although the source raises ProtectedError and deletes nothing when a bond license of the warehouse is referenced by an import or export declaration (PROTECT at inventory/models.py:122 and :136).
- inventory/serializers.py, inventory/admin.py, inventory/urls.py and the HTML page views (inventory/views.py:88-110) are not part of this model.
- The supplier, category, product and warehouse view sets (inventory/views.py:21-38) and the compliance view sets are not modelled as requests. Their deletes are modelled as the Catalog delete functions, outside `Api.Request`. Their creates and updates of master data are not modelled.
- Api.RunIsReplayOfCreated: a DELETE on the product or warehouse collection (inventory/views.py:31-38, routed at inventory/urls.py:21-22) removes that product's or warehouse's stock rows and movements by CASCADE (Catalog.DeleteProduct, Catalog.DeleteWarehouse) without applying any movement. So the replay property, and the same claim in Api.Handle, Api.Run and Api.RunFromEmptyLedger, covers only sequences of requests to the stock and movement collections.
- Ledger.Apply: a `movement_type` outside 'IN'/'OUT' could only reach `apply` by bypassing validation, so the type is a two-valued enum. Only the `Outbound` value exercises the subtracting else-branch.
- Ledger.Apply: quantities are unbounded integers. The database's integer column width and its overflow error are not modelled.
- Api.Handle: a stock row is retrieved by its (product, warehouse) pair rather than by its surrogate key.
- Api.Handle: PATCH (partial update) of a movement is not modelled. The full-update case it resembles is.
- Api.Validate: only the product, warehouse, movement_type and quantity fields are validated. The serializer exposes every field (`fields = "__all__"`, inventory/serializers.py:74), so the source also answers 400 for an invalid `reason` choice (inventory/models.py:169), a malformed `document_date`, or an unknown import or export declaration key. The model accepts those payloads.
- Api.Validate: the quantity bound 2147483647 is Django's default range for `PositiveIntegerField`. A database backend with a different range would move the bound.
- SeedCommand.SeedItems: its own contract states only the frame and the shape of the new movements. The one-receipt-per-item promise is stated about it by SeedCommand.SeedItemsReceipts.
- Catalog.SaveAndApply: all tables draw keys from one counter. Only the freshness of keys matters, not their values.
- SeedCommand.Seed: the success message written to stdout is not modelled.

=== FILE: api.dfy ===
/**
 The REST layer of inventory/views.py over the stock ledger: the read-only
 stock collection, and the movement collection whose create paths (the
 default create and the `adjust` action) validate, save and apply a movement
 exactly once. Requests are processed one at a time.
 */
module Api {
  import opened Results
  import opened Ledger
  import opened Catalog

  /** A movement request body: each field may be missing from the JSON. */
  datatype Payload = Payload(product: Option<int>, warehouse: Option<int>, movementType: Option<string>, quantity: Option<int>)

  /** The serializer fields that can fail validation. */
  datatype Field = ProductField | WarehouseField | MovementTypeField | QuantityField

  /** The stored code of a movement type. */
  function Code(k: MovementType): string
  {
    match k
    case Inbound => "IN"
    case Outbound => "OUT"
  }

  /** The choice validation of `movement_type`: only 'IN' and 'OUT' are accepted. */
  function ParseMovementType(code: string): Option<MovementType>
  {
    if code == "IN" then Some(Inbound)
    else if code == "OUT" then Some(Outbound)
    else None
  }

  /** Parsing is the inverse of the stored code, and accepts nothing else. */
  lemma ParseCodeRoundTrip(k: MovementType, code: string)
    ensures ParseMovementType(Code(k)) == Some(k)
    ensures ParseMovementType(code) == Some(k) ==> Code(k) == code
    ensures ParseMovementType(code).None? <==> forall k' :: Code(k') != code
  {
    if ParseMovementType(code).None? {
      forall k': MovementType ensures Code(k') != code {
        match k'
        case Inbound =>
        case Outbound =>
      }
    } else {
      assert Code(ParseMovementType(code).value) == code;
    }
  }

  /** A primary-key field: present, non-negative and naming an existing row. */
  predicate Resolves<R>(v: Option<int>, t: map<Id, R>)
  {
    v.Some? && v.value >= 0 && v.value as nat in t
  }

  predicate TypeOk(v: Option<string>)
  {
    v.Some? && ParseMovementType(v.value).Some?
  }

  /** The upper end of `PositiveIntegerField`'s range in Django's default
      integer ranges; the model serializer turns it into `max_value`. */
  const MaxQuantity: nat := 2147483647

  /** `PositiveIntegerField` accepts the integers from 0 to `MaxQuantity`. */
  predicate QuantityOk(v: Option<int>)
  {
    v.Some? && 0 <= v.value <= MaxQuantity
  }

  /** `serializer.is_valid()`: every invalid field is reported, and a valid
      payload becomes the movement it describes. */
  function Validate(st: Store, p: Payload): (r: Result<Movement, set<Field>>)
    ensures r.Success? <==> Resolves(p.product, st.products) && Resolves(p.warehouse, st.warehouses) && TypeOk(p.movementType) && QuantityOk(p.quantity)
    ensures r.Failure? ==> r.error != {}
    ensures r.Failure? ==> (ProductField in r.error <==> !Resolves(p.product, st.products))
    ensures r.Failure? ==> (WarehouseField in r.error <==> !Resolves(p.warehouse, st.warehouses))
    ensures r.Failure? ==> (MovementTypeField in r.error <==> !TypeOk(p.movementType))
    ensures r.Failure? ==> (QuantityField in r.error <==> !QuantityOk(p.quantity))
    ensures r.Success? ==> r.value.product in st.products && r.value.warehouse in st.warehouses
    ensures r.Success? ==> p.product == Some(r.value.product as int) && p.warehouse == Some(r.value.warehouse as int)
    ensures r.Success? ==> p.movementType == Some(Code(r.value.kind)) && p.quantity == Some(r.value.quantity as int)
  {
    var errors :=
      (if Resolves(p.product, st.products) then {} else {ProductField})
      + (if Resolves(p.warehouse, st.warehouses) then {} else {WarehouseField})
      + (if TypeOk(p.movementType) then {} else {MovementTypeField})
      + (if QuantityOk(p.quantity) then {} else {QuantityField});
    if errors != {} then Failure(errors)
    else
      var k := ParseMovementType(p.movementType.value).value;
      ParseCodeRoundTrip(k, p.movementType.value);
      Success(Movement(p.product.value as nat, p.warehouse.value as nat, k, p.quantity.value as nat))
  }

  datatype Response =
    | Created(id: Id, movement: Movement)
    | Updated(id: Id, movement: Movement)
    | Deleted
    | StockRows(rows: Stock)
    | StockRow(pair: Pair, quantity: int)
    | BadRequest(errors: set<Field>)
    | NotFound
    | MethodNotAllowed

  /** The HTTP status of a response. */
  function Status(r: Response): nat
  {
    match r
    case Created(_, _) => 201
    case Updated(_, _) => 200
    case Deleted => 204
    case StockRows(_) => 200
    case StockRow(_, _) => 200
    case BadRequest(_) => 400
    case NotFound => 404
    case MethodNotAllowed => 405
  }

  datatype Request =
    | ListStock                                  // GET /stock/
    | RetrieveStock(pair: Pair)                  // GET /stock/{id}/
    | WriteStock(pair: Pair, quantity: int)      // POST, PUT, PATCH or DELETE on /stock/
    | CreateMovement(payload: Payload)           // POST /movements/
    | AdjustMovement(payload: Payload)           // POST /movements/adjust/
    | UpdateMovement(id: Id, payload: Payload)   // PUT /movements/{id}/
    | DestroyMovement(id: Id)                    // DELETE /movements/{id}/

  /** `perform_create`: save the validated movement, then apply it once. */
  function PerformCreate(st: Store, m: Movement): (r: (Store, Response))
    requires Valid(st)
    requires m.product in st.products && m.warehouse in st.warehouses
    ensures r.1.Created? && r.1.movement == m && r.1.id !in st.movements
    ensures r.0.movements == st.movements[r.1.id := m]
    ensures r.0.stock == Apply(st.stock, m)
    ensures SameMasterData(st, r.0) && Valid(r.0)
  {
    var (st', id) := SaveAndApply(st, m);
    (st', Created(id, m))
  }

  /** The default create of the movement collection: the framework validates
      the payload, raising a 400 before anything is saved, then calls
      `perform_create` and answers 201. */
  function Create(st: Store, p: Payload): (r: (Store, Response))
    requires Valid(st)
    ensures Validate(st, p).Failure? ==> r == (st, BadRequest(Validate(st, p).error))
    ensures Validate(st, p).Success? ==> r.1.Created? && r.1.movement == Validate(st, p).value && Status(r.1) == 201
    ensures Validate(st, p).Success? ==> r.0.stock == Apply(st.stock, Validate(st, p).value)
    ensures Validate(st, p).Success? ==> r.1.id !in st.movements && r.0.movements == st.movements[r.1.id := r.1.movement]
    ensures SameMasterData(st, r.0) && Valid(r.0)
  {
    match Validate(st, p)
    case Failure(errors) => (st, BadRequest(errors))
    case Success(m) => PerformCreate(st, m)
  }

  /** The `adjust` action: validate (raising before any save), save, apply
      once, and return the created movement with status 201. */
  function Adjust(st: Store, p: Payload): (r: (Store, Response))
    requires Valid(st)
    ensures r.1.BadRequest? <==> Validate(st, p).Failure?
    ensures r.1.BadRequest? ==> r.0 == st
    ensures r.1.Created? <==> Validate(st, p).Success?
    ensures r.1.Created? ==> Status(r.1) == 201 && r.1.movement == Validate(st, p).value
    ensures r.1.Created? ==> r.0.stock == Apply(st.stock, r.1.movement)
    ensures r.1.Created? ==> r.0.movements == st.movements[r.1.id := r.1.movement] && r.1.id !in st.movements
    ensures SameMasterData(st, r.0) && Valid(r.0)
  {
    var v := Validate(st, p);
    if v.Failure? then (st, BadRequest(v.error))
    else
      var (st', id) := SaveAndApply(st, v.value);
      (st', Created(id, v.value))
  }

  /** The two create routes differ only in routing: for every payload they
      leave the same store and give the same answer. */
  lemma AdjustMatchesCreate(st: Store, p: Payload)
    requires Valid(st)
    ensures Adjust(st, p) == Create(st, p)
  {
  }

  /** Dispatches one request. The stock collection is read-only, so the
      ledger changes only when a movement is created, and then by exactly
      one application of that movement. */
  function Handle(st: Store, req: Request): (r: (Store, Response))
    requires Valid(st)
    ensures Valid(r.0) && SameMasterData(st, r.0)
    ensures r.1.Created? ==> r.0.stock == Apply(st.stock, r.1.movement)
    ensures r.1.Created? ==> r.1.id !in st.movements && r.0.movements == st.movements[r.1.id := r.1.movement]
    ensures !r.1.Created? ==> r.0.stock == st.stock
    ensures r.1.Created? ==> req.CreateMovement? || req.AdjustMovement?
    ensures r.1.BadRequest? || r.1.NotFound? || r.1.MethodNotAllowed? ==> r.0 == st
    ensures req.WriteStock? ==> r == (st, MethodNotAllowed)
    ensures req.ListStock? ==> r == (st, StockRows(st.stock))
    ensures (req.CreateMovement? || req.AdjustMovement?) ==> (r.1.Created? <==> Validate(st, req.payload).Success?)
  {
    match req
    case ListStock => (st, StockRows(st.stock))
    case RetrieveStock(k) =>
      if k in st.stock then (st, StockRow(k, st.stock[k])) else (st, NotFound)
    case WriteStock(_, _) => (st, MethodNotAllowed)
    case CreateMovement(p) => Create(st, p)
    case AdjustMovement(p) => Adjust(st, p)
    case UpdateMovement(id, p) =>
      if id !in st.movements then (st, NotFound)
      else
        var v := Validate(st, p);
        if v.Failure? then (st, BadRequest(v.error))
        else (ReplaceMovement(st, id, v.value), Updated(id, v.value))
    case DestroyMovement(id) =>
      if id !in st.movements then (st, NotFound)
      else (RemoveMovement(st, id), Deleted)
  }

  /** Processes requests one after another. */
  function Run(st: Store, reqs: seq<Request>): (r: (Store, seq<Response>))
    requires Valid(st)
    ensures Valid(r.0) && SameMasterData(st, r.0)
    ensures |r.1| == |reqs|
    decreases |reqs|
  {
    if |reqs| == 0 then (st, [])
    else
      var (st1, resp) := Handle(st, reqs[0]);
      var (st2, resps) := Run(st1, reqs[1..]);
      (st2, [resp] + resps)
  }

  /** The movements the responses report as created, in order. */
  function CreatedMovements(resps: seq<Response>): seq<Movement>
    decreases |resps|
  {
    if |resps| == 0 then []
    else (if resps[0].Created? then [resps[0].movement] else []) + CreatedMovements(resps[1..])
  }

  /** Over any run of requests, the final ledger is the initial one with each
      created movement applied exactly once, in creation order. */
  lemma {:induction false} RunIsReplayOfCreated(st: Store, reqs: seq<Request>)
    requires Valid(st)
    ensures Run(st, reqs).0.stock == ApplyAll(st.stock, CreatedMovements(Run(st, reqs).1))
    decreases |reqs|
  {
    if |reqs| > 0 {
      var (st1, resp) := Handle(st, reqs[0]);
      var (st2, resps) := Run(st1, reqs[1..]);
      RunIsReplayOfCreated(st1, reqs[1..]);
      var all := [resp] + resps;
      assert all[1..] == resps;
      if resp.Created? {
        var ms := [resp.movement] + CreatedMovements(resps);
        assert ms[0] == resp.movement && ms[1..] == CreatedMovements(resps);
      } else {
        assert CreatedMovements(all) == CreatedMovements(resps);
      }
    }
  }

  /** Hence from an empty ledger every pair holds the inbound total minus the
      outbound total of the movements created for it through the API. */
  lemma RunFromEmptyLedger(st: Store, reqs: seq<Request>, k: Pair)
    requires Valid(st) && st.stock == map[]
    ensures OnHand(Run(st, reqs).0.stock, k) == SumIn(CreatedMovements(Run(st, reqs).1), k) - SumOut(CreatedMovements(Run(st, reqs).1), k)
  {
    RunIsReplayOfCreated(st, reqs);
    ApplyAllNet(st.stock, CreatedMovements(Run(st, reqs).1), k);
  }
}

=== FILE: catalog.dfy ===
/**
 The relational store of inventory/models.py: master data (suppliers,
 categories, products, warehouses), the stock ledger and the movement table,
 with the foreign-key integrity the database keeps and the delete rules
 (`on_delete`) declared on the foreign keys.
 */
module Catalog {
  import opened Results
  import opened Ledger

  /** A primary key. Every table draws fresh keys from one counter. */
  type Id = nat

  datatype Supplier = Supplier(name: string)
  datatype Category = Category(name: string)
  datatype Warehouse = Warehouse(name: string, location: string)
  /** A product; `category` is required, `supplier` is nullable. */
  datatype Product = Product(sku: string, name: string, category: Id, supplier: Option<Id>)

  datatype Store = Store(
    suppliers: map<Id, Supplier>,
    categories: map<Id, Category>,
    products: map<Id, Product>,
    warehouses: map<Id, Warehouse>,
    stock: Stock,
    movements: map<Id, Movement>,
    nextId: Id)

  /** A freshly migrated, empty database. */
  const EmptyStore: Store := Store(map[], map[], map[], map[], map[], map[], 1)

  predicate KeysBelow<R>(t: map<Id, R>, bound: Id)
  {
    forall id :: id in t ==> id < bound
  }

  /** Every key lies below the next fresh key. */
  predicate KeysFresh(st: Store)
  {
    && KeysBelow(st.suppliers, st.nextId)
    && KeysBelow(st.categories, st.nextId)
    && KeysBelow(st.products, st.nextId)
    && KeysBelow(st.warehouses, st.nextId)
    && KeysBelow(st.movements, st.nextId)
  }

  /** A product's category exists and its supplier, when set, exists. */
  predicate ProductRefsResolve(st: Store)
  {
    && (forall p :: p in st.products ==> st.products[p].category in st.categories)
    && (forall p :: p in st.products && st.products[p].supplier.Some? ==> st.products[p].supplier.value in st.suppliers)
  }

  /** Stock rows and movements refer to existing products and warehouses. */
  predicate LedgerRefsResolve(st: Store)
  {
    && (forall k :: k in st.stock ==> k.0 in st.products && k.1 in st.warehouses)
    && (forall i :: i in st.movements ==> st.movements[i].product in st.products && st.movements[i].warehouse in st.warehouses)
  }

  /** Category names and product SKUs are unique. */
  predicate UniqueNames(st: Store)
  {
    && (forall a, b :: a in st.categories && b in st.categories && st.categories[a].name == st.categories[b].name ==> a == b)
    && (forall a, b :: a in st.products && b in st.products && st.products[a].sku == st.products[b].sku ==> a == b)
  }

  /** What the database guarantees of every committed state: keys are below
      the next fresh key, every foreign key resolves, category names and
      product SKUs are unique. Stock rows are unique per pair by the map. */
  predicate Valid(st: Store)
  {
    KeysFresh(st) && ProductRefsResolve(st) && LedgerRefsResolve(st) && UniqueNames(st)
  }

  lemma EmptyStoreValid()
    ensures Valid(EmptyStore)
  {
  }

  /** Everything except the stock ledger and the movement table. */
  predicate SameMasterData(a: Store, b: Store)
  {
    && a.suppliers == b.suppliers
    && a.categories == b.categories
    && a.products == b.products
    && a.warehouses == b.warehouses
  }

  /** `StockMovement.objects.create(...)` followed by `movement.apply()`:
      the movement is stored under a fresh key and applied exactly once. */
  function SaveAndApply(st: Store, m: Movement): (r: (Store, Id))
    requires KeysBelow(st.movements, st.nextId)
    ensures r.1 !in st.movements
    ensures r.0.movements == st.movements[r.1 := m]
    ensures r.0.stock == Apply(st.stock, m)
    ensures SameMasterData(st, r.0)
    ensures r.0.nextId > r.1 && r.0.nextId > st.nextId
    ensures Valid(st) && m.product in st.products && m.warehouse in st.warehouses ==> Valid(r.0)
  {
    var id := st.nextId;
    (st.(movements := st.movements[id := m], stock := Apply(st.stock, m), nextId := id + 1), id)
  }

  /** Saves new field values over a stored movement. The ledger is left as
      it was: the earlier application is neither undone nor redone. */
  function ReplaceMovement(st: Store, id: Id, m: Movement): (r: Store)
    requires Valid(st) && id in st.movements
    requires m.product in st.products && m.warehouse in st.warehouses
    ensures r.movements == st.movements[id := m] && r.movements.Keys == st.movements.Keys
    ensures r.stock == st.stock && SameMasterData(st, r)
    ensures Valid(r)
  {
    st.(movements := st.movements[id := m])
  }

  /** Deletes a stored movement. The ledger is left as it was: the deleted
      movement's application is not undone. */
  function RemoveMovement(st: Store, id: Id): (r: Store)
    requires Valid(st)
    ensures r.movements.Keys == st.movements.Keys - {id}
    ensures forall i :: i in r.movements ==> r.movements[i] == st.movements[i]
    ensures r.stock == st.stock && SameMasterData(st, r)
    ensures Valid(r)
  {
    st.(movements := st.movements - {id})
  }

  datatype DeleteError = DoesNotExist | ProtectedError

  /** Deletes a category. The products' foreign key is PROTECT, so the
      deletion is refused while any product refers to the category. */
  function DeleteCategory(st: Store, id: Id): (r: Result<Store, DeleteError>)
    ensures r == Failure(DoesNotExist) <==> id !in st.categories
    ensures r == Failure(ProtectedError) <==> id in st.categories && exists p :: p in st.products && st.products[p].category == id
    ensures r.Success? ==> r.value.categories.Keys == st.categories.Keys - {id}
    ensures r.Success? ==> forall c :: c in r.value.categories ==> r.value.categories[c] == st.categories[c]
    ensures r.Success? ==> r.value.products == st.products && r.value.stock == st.stock && r.value.movements == st.movements
    ensures r.Success? ==> r.value.suppliers == st.suppliers && r.value.warehouses == st.warehouses && r.value.nextId == st.nextId
  {
    if id !in st.categories then Failure(DoesNotExist)
    else if exists p :: p in st.products && st.products[p].category == id then Failure(ProtectedError)
    else Success(st.(categories := st.categories - {id}))
  }

  /** The product after its supplier `id` is deleted: SET_NULL. */
  function Unlink(p: Product, id: Id): Product
  {
    if p.supplier == Some(id) then p.(supplier := None) else p
  }

  /** Deletes a supplier. The products' foreign key is SET_NULL, so every
      product that referred to it is kept with no supplier. */
  function DeleteSupplier(st: Store, id: Id): (r: Result<Store, DeleteError>)
    ensures r.Failure? <==> id !in st.suppliers
    ensures r.Failure? ==> r.error == DoesNotExist
    ensures r.Success? ==> r.value.suppliers.Keys == st.suppliers.Keys - {id}
    ensures r.Success? ==> forall s :: s in r.value.suppliers ==> r.value.suppliers[s] == st.suppliers[s]
    ensures r.Success? ==> r.value.products.Keys == st.products.Keys
    ensures r.Success? ==> forall p :: p in st.products && st.products[p].supplier == Some(id) ==>
      r.value.products[p].supplier.None? && r.value.products[p].(supplier := Some(id)) == st.products[p]
    ensures r.Success? ==> forall p :: p in st.products && st.products[p].supplier != Some(id) ==>
      r.value.products[p] == st.products[p]
    ensures r.Success? ==> r.value.stock == st.stock && r.value.movements == st.movements
    ensures r.Success? ==> r.value.categories == st.categories && r.value.warehouses == st.warehouses && r.value.nextId == st.nextId
  {
    if id !in st.suppliers then Failure(DoesNotExist)
    else
      Success(st.(suppliers := st.suppliers - {id},
                  products := map p | p in st.products :: Unlink(st.products[p], id)))
  }

  /** Deletes a product. Stock rows and movements refer to it with CASCADE,
      so they are deleted with it; nothing else changes. */
  function DeleteProduct(st: Store, id: Id): (r: Result<Store, DeleteError>)
    ensures r.Failure? <==> id !in st.products
    ensures r.Failure? ==> r.error == DoesNotExist
    ensures r.Success? ==> r.value.products.Keys == st.products.Keys - {id}
    ensures r.Success? ==> forall p :: p in r.value.products ==> r.value.products[p] == st.products[p]
    ensures r.Success? ==> forall k :: k in st.stock ==> (k in r.value.stock <==> k.0 != id)
    ensures r.Success? ==> forall k :: k in r.value.stock ==> k in st.stock && r.value.stock[k] == st.stock[k]
    ensures r.Success? ==> forall i :: i in st.movements ==> (i in r.value.movements <==> st.movements[i].product != id)
    ensures r.Success? ==> forall i :: i in r.value.movements ==> i in st.movements && r.value.movements[i] == st.movements[i]
    ensures r.Success? ==> r.value.suppliers == st.suppliers && r.value.categories == st.categories && r.value.warehouses == st.warehouses
    ensures r.Success? ==> r.value.nextId == st.nextId
  {
    if id !in st.products then Failure(DoesNotExist)
    else
      Success(st.(products := st.products - {id},
                  stock := map k | k in st.stock && k.0 != id :: st.stock[k],
                  movements := map i | i in st.movements && st.movements[i].product != id :: st.movements[i]))
  }

  /** Deletes a warehouse, cascading to its stock rows and movements. */
  function DeleteWarehouse(st: Store, id: Id): (r: Result<Store, DeleteError>)
    ensures r.Failure? <==> id !in st.warehouses
    ensures r.Failure? ==> r.error == DoesNotExist
    ensures r.Success? ==> r.value.warehouses.Keys == st.warehouses.Keys - {id}
    ensures r.Success? ==> forall w :: w in r.value.warehouses ==> r.value.warehouses[w] == st.warehouses[w]
    ensures r.Success? ==> forall k :: k in st.stock ==> (k in r.value.stock <==> k.1 != id)
    ensures r.Success? ==> forall k :: k in r.value.stock ==> k in st.stock && r.value.stock[k] == st.stock[k]
    ensures r.Success? ==> forall i :: i in st.movements ==> (i in r.value.movements <==> st.movements[i].warehouse != id)
    ensures r.Success? ==> forall i :: i in r.value.movements ==> i in st.movements && r.value.movements[i] == st.movements[i]
    ensures r.Success? ==> r.value.suppliers == st.suppliers && r.value.categories == st.categories && r.value.products == st.products
    ensures r.Success? ==> r.value.nextId == st.nextId
  {
    if id !in st.warehouses then Failure(DoesNotExist)
    else
      Success(st.(warehouses := st.warehouses - {id},
                  stock := map k | k in st.stock && k.1 != id :: st.stock[k],
                  movements := map i | i in st.movements && st.movements[i].warehouse != id :: st.movements[i]))
  }

  /** Deleting a category, when allowed, keeps every foreign key resolvable. */
  lemma DeleteCategoryKeepsValid(st: Store, id: Id)
    requires Valid(st)
    ensures DeleteCategory(st, id).Success? ==> Valid(DeleteCategory(st, id).value)
  {
  }

  /** SET_NULL leaves no product pointing at the deleted supplier. */
  lemma DeleteSupplierKeepsValid(st: Store, id: Id)
    requires Valid(st)
    ensures DeleteSupplier(st, id).Success? ==> Valid(DeleteSupplier(st, id).value)
  {
    if id in st.suppliers {
      var r := DeleteSupplier(st, id).value;
      assert KeysFresh(r);
      assert ProductRefsResolve(r);
      assert LedgerRefsResolve(r);
      assert UniqueNames(r) by {
        forall a, b | a in r.products && b in r.products && r.products[a].sku == r.products[b].sku
          ensures a == b
        {
          assert st.products[a].sku == r.products[a].sku;
          assert st.products[b].sku == r.products[b].sku;
        }
      }
    }
  }

  /** CASCADE removes every stock row and movement of the deleted product. */
  lemma DeleteProductKeepsValid(st: Store, id: Id)
    requires Valid(st)
    ensures DeleteProduct(st, id).Success? ==> Valid(DeleteProduct(st, id).value)
  {
    if id in st.products {
      var r := DeleteProduct(st, id).value;
      assert KeysFresh(r);
      assert ProductRefsResolve(r);
      assert LedgerRefsResolve(r);
      assert UniqueNames(r);
    }
  }

  /** CASCADE removes every stock row and movement of the deleted warehouse. */
  lemma DeleteWarehouseKeepsValid(st: Store, id: Id)
    requires Valid(st)
    ensures DeleteWarehouse(st, id).Success? ==> Valid(DeleteWarehouse(st, id).value)
  {
    if id in st.warehouses {
      var r := DeleteWarehouse(st, id).value;
      assert KeysFresh(r);
      assert ProductRefsResolve(r);
      assert LedgerRefsResolve(r);
      assert UniqueNames(r);
    }
  }
}

=== FILE: ledger.dfy ===
/**
 The stock ledger of inventory/models.py: the `Stock` table, viewed as a map
 from a (product, warehouse) pair to an on-hand quantity, and the `apply`
 operation of a `StockMovement`, which adds or subtracts the movement's
 quantity on the row of its pair.
 */
module Ledger {

  type ProductId = nat
  type WarehouseId = nat

  /** The key of a `Stock` row; the table is unique on this pair. */
  type Pair = (ProductId, WarehouseId)

  /** The `Stock` table. A map holds at most one quantity per pair. */
  type Stock = map<Pair, int>

  /** The two choices of `movement_type`: 'IN' and 'OUT'. */
  datatype MovementType = Inbound | Outbound

  /** A stock movement. The quantity is a non-negative count and the
      direction is carried by `kind`. */
  datatype Movement = Movement(product: ProductId, warehouse: WarehouseId, kind: MovementType, quantity: nat)
  {
    /** The stock row this movement updates. */
    function Pair(): Pair { (product, warehouse) }
  }

  /** The quantity on hand for a pair; a missing row reads as the field default 0. */
  function OnHand(s: Stock, k: Pair): int
  {
    if k in s then s[k] else 0
  }

  /** Applies one movement: get-or-create the row of the movement's pair with
      quantity 0, then add the quantity for 'IN' and subtract it otherwise.
      There is no floor and no check that enough stock is on hand. */
  function Apply(s: Stock, m: Movement): (s': Stock)
    ensures m.Pair() in s'
    ensures m.kind == Inbound ==> s'[m.Pair()] == OnHand(s, m.Pair()) + m.quantity
    ensures m.kind != Inbound ==> s'[m.Pair()] == OnHand(s, m.Pair()) - m.quantity
    ensures m.Pair() !in s && m.kind == Inbound ==> s'[m.Pair()] == m.quantity
    ensures m.Pair() !in s && m.kind == Outbound ==> s'[m.Pair()] == -(m.quantity as int)
    ensures m.kind == Outbound && m.quantity > OnHand(s, m.Pair()) ==> s'[m.Pair()] < 0
    ensures s'.Keys == s.Keys + {m.Pair()}
    ensures forall k :: k in s && k != m.Pair() ==> s'[k] == s[k]
  {
    var k := (m.product, m.warehouse);
    var row := if k in s then s[k] else 0;
    if m.kind == Inbound then s[k := row + m.quantity] else s[k := row - m.quantity]
  }

  /** The signed change a movement makes to its own pair. */
  function Delta(m: Movement): int
  {
    if m.kind == Inbound then m.quantity else -(m.quantity as int)
  }

  /** Apply shifts its own pair by the signed quantity and no other pair. */
  lemma ApplyFrame(s: Stock, m: Movement, k: Pair)
    ensures OnHand(Apply(s, m), k) == OnHand(s, k) + (if k == m.Pair() then Delta(m) else 0)
    ensures k in Apply(s, m) <==> k in s || k == m.Pair()
  {
  }

  /** The pairs a sequence of movements touches. */
  function Touched(ms: seq<Movement>): set<Pair>
  {
    set m | m in ms :: m.Pair()
  }

  /** Applies each movement of `ms` once, in order. */
  function ApplyAll(s: Stock, ms: seq<Movement>): (r: Stock)
    ensures r.Keys == s.Keys + Touched(ms)
    decreases |ms|
  {
    if |ms| == 0 then s
    else
      assert Touched(ms) == {ms[0].Pair()} + Touched(ms[1..]) by {
        assert forall m :: m in ms <==> m == ms[0] || m in ms[1..];
      }
      ApplyAll(Apply(s, ms[0]), ms[1..])
  }

  /** Sum of the quantities of the inbound movements of `ms` at pair `k`. */
  function SumIn(ms: seq<Movement>, k: Pair): nat
    decreases |ms|
  {
    if |ms| == 0 then 0
    else (if ms[0].Pair() == k && ms[0].kind == Inbound then ms[0].quantity else 0) + SumIn(ms[1..], k)
  }

  /** Sum of the quantities of the outbound movements of `ms` at pair `k`. */
  function SumOut(ms: seq<Movement>, k: Pair): nat
    decreases |ms|
  {
    if |ms| == 0 then 0
    else (if ms[0].Pair() == k && ms[0].kind == Outbound then ms[0].quantity else 0) + SumOut(ms[1..], k)
  }

  /** Replaying movements once each shifts every pair by its inbound total
      minus its outbound total, whatever the starting quantities. */
  lemma {:induction false} ApplyAllNet(s: Stock, ms: seq<Movement>, k: Pair)
    ensures OnHand(ApplyAll(s, ms), k) == OnHand(s, k) + SumIn(ms, k) - SumOut(ms, k)
    decreases |ms|
  {
    if |ms| > 0 {
      ApplyAllNet(Apply(s, ms[0]), ms[1..], k);
    }
  }

  /** From an empty ledger, the rows are exactly the touched pairs and each
      holds sum(IN) - sum(OUT) of the movements at that pair. */
  lemma ReplayFromEmpty(ms: seq<Movement>)
    ensures ApplyAll(map[], ms).Keys == Touched(ms)
    ensures forall k :: k in Touched(ms) ==> ApplyAll(map[], ms)[k] == SumIn(ms, k) - SumOut(ms, k)
  {
    forall k | k in Touched(ms)
      ensures ApplyAll(map[], ms)[k] == SumIn(ms, k) - SumOut(ms, k)
    {
      ApplyAllNet(map[], ms, k);
    }
  }

  /** The sums over a concatenation split. */
  lemma {:induction false} SumsConcat(a: seq<Movement>, b: seq<Movement>, k: Pair)
    ensures SumIn(a + b, k) == SumIn(a, k) + SumIn(b, k)
    ensures SumOut(a + b, k) == SumOut(a, k) + SumOut(b, k)
    decreases |a|
  {
    if |a| == 0 {
      assert a + b == b;
    } else {
      assert (a + b)[1..] == a[1..] + b;
      SumsConcat(a[1..], b, k);
    }
  }

  /** Taking one movement out of a history takes its contribution out of
      the sums. */
  lemma SumsRemove(b: seq<Movement>, i: nat, k: Pair)
    requires i < |b|
    ensures SumIn(b, k) == SumIn([b[i]], k) + SumIn(b[..i] + b[i + 1..], k)
    ensures SumOut(b, k) == SumOut([b[i]], k) + SumOut(b[..i] + b[i + 1..], k)
  {
    assert b == b[..i] + [b[i]] + b[i + 1..];
    SumsConcat(b[..i] + [b[i]], b[i + 1..], k);
    SumsConcat(b[..i], [b[i]], k);
    SumsConcat(b[..i], b[i + 1..], k);
  }

  /** Removing the same element from two equal multisets of a sequence. */
  lemma MultisetRemove(a: seq<Movement>, b: seq<Movement>, i: nat)
    requires multiset(a) == multiset(b) && 0 < |a| && i < |b| && b[i] == a[0]
    ensures multiset(a[1..]) == multiset(b[..i] + b[i + 1..])
  {
    assert a == [a[0]] + a[1..];
    assert b == b[..i] + [b[i]] + b[i + 1..];
    calc {
      multiset(a[1..]);
      multiset(a) - multiset{a[0]};
      multiset(b) - multiset{b[i]};
      multiset(b[..i]) + multiset(b[i + 1..]);
      multiset(b[..i] + b[i + 1..]);
    }
  }

  /** The sums depend only on the multiset of movements, not on their order. */
  lemma {:induction false} SumsPermutation(a: seq<Movement>, b: seq<Movement>, k: Pair)
    requires multiset(a) == multiset(b)
    ensures SumIn(a, k) == SumIn(b, k)
    ensures SumOut(a, k) == SumOut(b, k)
    decreases |a|
  {
    if |a| > 0 {
      assert a[0] in multiset(b);
      var i :| 0 <= i < |b| && b[i] == a[0];
      MultisetRemove(a, b, i);
      SumsPermutation(a[1..], b[..i] + b[i + 1..], k);
      SumsRemove(b, i, k);
      assert [a[0]][1..] == [];
    } else {
      assert |b| == |multiset(b)| == 0;
    }
  }

  /** Permuting a history does not change the pairs it touches. */
  lemma TouchedPermutation(a: seq<Movement>, b: seq<Movement>)
    requires multiset(a) == multiset(b)
    ensures Touched(a) == Touched(b)
  {
    assert forall m :: m in a <==> m in multiset(a);
    assert forall m :: m in b <==> m in multiset(b);
  }

  /** Applying the same movements in any order yields the same ledger. */
  lemma ApplyAllOrderIndependent(s: Stock, a: seq<Movement>, b: seq<Movement>)
    requires multiset(a) == multiset(b)
    ensures ApplyAll(s, a) == ApplyAll(s, b)
  {
    TouchedPermutation(a, b);
    var x, y := ApplyAll(s, a), ApplyAll(s, b);
    assert x.Keys == y.Keys;
    forall k | k in x
      ensures x[k] == y[k]
    {
      PermutationOnHand(s, a, b, k);
    }
  }

  /** Pointwise form: a permuted history leaves each pair with the same quantity. */
  lemma PermutationOnHand(s: Stock, a: seq<Movement>, b: seq<Movement>, k: Pair)
    requires multiset(a) == multiset(b)
    ensures OnHand(ApplyAll(s, a), k) == OnHand(ApplyAll(s, b), k)
  {
    ApplyAllNet(s, a, k);
    ApplyAllNet(s, b, k);
    SumsPermutation(a, b, k);
  }

  /** `n` copies of the same movement. */
  function Repeat(m: Movement, n: nat): (ms: seq<Movement>)
    ensures |ms| == n
    ensures forall i :: 0 <= i < n ==> ms[i] == m
  {
    if n == 0 then [] else [m] + Repeat(m, n - 1)
  }

  /** n copies of a movement contribute n times its quantity to its own
      pair's inbound or outbound total, and nothing anywhere else. */
  lemma {:induction false} SumsRepeat(m: Movement, n: nat, k: Pair)
    ensures SumIn(Repeat(m, n), k) == if k == m.Pair() && m.kind == Inbound then n * m.quantity else 0
    ensures SumOut(Repeat(m, n), k) == if k == m.Pair() && m.kind == Outbound then n * m.quantity else 0
    decreases n
  {
    if n > 0 {
      assert Repeat(m, n)[1..] == Repeat(m, n - 1);
      SumsRepeat(m, n - 1, k);
      assert (n - 1) * m.quantity + m.quantity == n * m.quantity;
    }
  }

  /** Apply is not idempotent: applying one movement n times shifts its pair
      by n times its quantity, and leaves every other pair alone. */
  lemma ApplyRepeated(s: Stock, m: Movement, n: nat)
    ensures m.kind == Inbound ==> OnHand(ApplyAll(s, Repeat(m, n)), m.Pair()) == OnHand(s, m.Pair()) + n * m.quantity
    ensures m.kind == Outbound ==> OnHand(ApplyAll(s, Repeat(m, n)), m.Pair()) == OnHand(s, m.Pair()) - n * m.quantity
    ensures forall k :: k != m.Pair() ==> OnHand(ApplyAll(s, Repeat(m, n)), k) == OnHand(s, k)
  {
    ApplyAllNet(s, Repeat(m, n), m.Pair());
    SumsRepeat(m, n, m.Pair());
    forall k | k != m.Pair()
      ensures OnHand(ApplyAll(s, Repeat(m, n)), k) == OnHand(s, k)
    {
      ApplyAllNet(s, Repeat(m, n), k);
      SumsRepeat(m, n, k);
    }
  }

  /** Applying a movement of non-zero quantity a second time changes the
      ledger again: the second application is not absorbed. */
  lemma ApplyTwiceDiffers(s: Stock, m: Movement)
    requires m.quantity > 0
    ensures Apply(Apply(s, m), m) != Apply(s, m)
    ensures m.kind == Inbound ==> Apply(Apply(s, m), m)[m.Pair()] == OnHand(s, m.Pair()) + 2 * m.quantity
    ensures m.kind == Outbound ==> Apply(Apply(s, m), m)[m.Pair()] == OnHand(s, m.Pair()) - 2 * m.quantity
  {
  }
}

=== FILE: results.dfy ===
/** Failure-carrying wrappers shared by the other modules. */
module Results {

  /** A value that may be absent, as a nullable column or an optional payload field. */
  datatype Option<+T> = None | Some(value: T)

  /** The outcome of an operation that either produces a value or raises an error. */
  datatype Result<+T, +E> = Success(value: T) | Failure(error: E)
}

=== FILE: seed.dfy ===
/**
 The `seed_inventory` management command: get-or-create a default supplier,
 category and warehouse, get-or-create three products by SKU, and for each of
 them create and apply an inbound movement of 100 at the seeded warehouse.
 The command runs without a transaction, so a failure keeps what was
 created before it.
 */
module SeedCommand {
  import opened Results
  import opened Ledger
  import opened Catalog

  const SupplierName := "Default Supplier"
  const CategoryName := "General"
  const WarehouseName := "Main Warehouse"
  const WarehouseLocation := "HQ"
  const SeedQuantity: nat := 100

  /** The seeded products as (sku, name); their prices are not modelled. */
  const Items: seq<(string, string)> := [("SKU-001", "Item A"), ("SKU-002", "Item B"), ("SKU-003", "Item C")]

  /** `get()` inside `get_or_create` raises when more than one row matches. */
  datatype LookupError = MultipleObjectsReturned

  /** The outcome of a run: the store it leaves, and the error if it raised. */
  datatype SeedOutcome = Seeded(store: Store) | Aborted(store: Store, error: LookupError)

  predicate IsSeedSupplier(s: Supplier) { s.name == SupplierName }
  predicate IsSeedCategory(c: Category) { c.name == CategoryName }
  predicate IsSeedWarehouse(w: Warehouse) { w.name == WarehouseName && w.location == WarehouseLocation }

  /** No two rows of `t` satisfy `matches`. */
  predicate AtMostOne<R>(t: map<Id, R>, matches: R -> bool)
  {
    forall a, b :: a in t && b in t && matches(t[a]) && matches(t[b]) ==> a == b
  }

  /** `id` is the one and only row of `t` satisfying `matches`. */
  predicate Only<R>(t: map<Id, R>, matches: R -> bool, id: Id)
  {
    id in t && matches(t[id]) && forall other :: other in t && matches(t[other]) ==> other == id
  }

  /** Some row of `t` satisfies `matches`. */
  predicate Exists<R>(t: map<Id, R>, matches: R -> bool)
  {
    exists id :: id in t && matches(t[id])
  }

  /** The keys below `bound` whose rows satisfy `matches`, in increasing order. */
  function Matching<R>(t: map<Id, R>, matches: R -> bool, bound: nat): (ids: seq<Id>)
    ensures forall i :: 0 <= i < |ids| ==> ids[i] < bound && ids[i] in t && matches(t[ids[i]])
    ensures forall id: Id :: id < bound && id in t && matches(t[id]) ==> id in ids
    ensures forall i, j :: 0 <= i < j < |ids| ==> ids[i] < ids[j]
    decreases bound
  {
    if bound == 0 then []
    else
      var rest := Matching(t, matches, bound - 1);
      if bound - 1 in t && matches(t[bound - 1]) then rest + [bound - 1] else rest
  }

  /** The result of a successful `get_or_create` on one table. */
  datatype Fetched<R> = Fetched(table: map<Id, R>, id: Id, created: bool)

  /** `get_or_create`: return the single matching row, raise if several
      match, and otherwise insert `row` under the next key. */
  function GetOrCreate<R>(t: map<Id, R>, next: Id, matches: R -> bool, row: R): (r: Result<Fetched<R>, LookupError>)
    requires KeysBelow(t, next)
    requires matches(row)
    ensures r.Failure? <==> !AtMostOne(t, matches)
    ensures r.Success? ==> Only(r.value.table, matches, r.value.id)
    ensures r.Success? ==> (r.value.created <==> !Exists(t, matches))
    ensures r.Success? && !r.value.created ==> r.value.table == t
    ensures r.Success? && r.value.created ==> r.value.id == next && r.value.table == t[next := row]
  {
    var ids := Matching(t, matches, next);
    if |ids| == 0 then
      Success(Fetched(t[next := row], next, true))
    else if |ids| == 1 then
      Success(Fetched(t, ids[0], false))
    else
      assert ids[0] != ids[1];
      Failure(MultipleObjectsReturned)
  }

  /** The key counter after a get-or-create. */
  function Advance<R>(next: Id, f: Fetched<R>): Id
  {
    if f.created then next + 1 else next
  }

  /** Every row of `t` is kept unchanged in `t'`. */
  predicate Extends<R(==)>(t: map<Id, R>, t': map<Id, R>)
  {
    forall id :: id in t ==> id in t' && t'[id] == t[id]
  }

  /** `Supplier.objects.get_or_create(name="Default Supplier")`. */
  function FetchSupplier(st: Store): (r: Result<(Store, Id), LookupError>)
    requires Valid(st)
    ensures r.Failure? <==> !AtMostOne(st.suppliers, IsSeedSupplier)
    ensures r.Success? ==> Valid(r.value.0) && Only(r.value.0.suppliers, IsSeedSupplier, r.value.1)
    ensures r.Success? ==> r.value.0 == st.(suppliers := r.value.0.suppliers, nextId := r.value.0.nextId)
    ensures r.Success? ==> Extends(st.suppliers, r.value.0.suppliers)
    ensures r.Success? && Exists(st.suppliers, IsSeedSupplier) ==> r.value.0 == st
    ensures r.Success? && !Exists(st.suppliers, IsSeedSupplier) ==>
      r.value.1 !in st.suppliers && r.value.0.suppliers == st.suppliers[r.value.1 := Supplier(SupplierName)]
  {
    var f := GetOrCreate(st.suppliers, st.nextId, IsSeedSupplier, Supplier(SupplierName));
    if f.Failure? then Failure(f.error)
    else
      AddSupplierKeepsValid(st, f.value);
      Success((st.(suppliers := f.value.table, nextId := Advance(st.nextId, f.value)), f.value.id))
  }

  /** `Category.objects.get_or_create(name="General")`. Category names are
      unique, so this never raises; the `Result` only mirrors the signature
      of `get_or_create`, whose failure case `Seed` still dispatches on. */
  function FetchCategory(st: Store): (r: Result<(Store, Id), LookupError>)
    requires Valid(st)
    ensures r.Success?
    ensures Valid(r.value.0) && Only(r.value.0.categories, IsSeedCategory, r.value.1)
    ensures r.value.0 == st.(categories := r.value.0.categories, nextId := r.value.0.nextId)
    ensures Extends(st.categories, r.value.0.categories)
    ensures Exists(st.categories, IsSeedCategory) ==> r.value.0 == st
    ensures !Exists(st.categories, IsSeedCategory) ==>
      r.value.1 !in st.categories && r.value.0.categories == st.categories[r.value.1 := Category(CategoryName)]
  {
    CategoryNamesAtMostOne(st);
    var f := GetOrCreate(st.categories, st.nextId, IsSeedCategory, Category(CategoryName));
    if f.Failure? then Failure(MultipleObjectsReturned)
    else
      AddCategoryKeepsValid(st, f.value);
      Success((st.(categories := f.value.table, nextId := Advance(st.nextId, f.value)), f.value.id))
  }

  /** `Warehouse.objects.get_or_create(name="Main Warehouse", location="HQ")`. */
  function FetchWarehouse(st: Store): (r: Result<(Store, Id), LookupError>)
    requires Valid(st)
    ensures r.Failure? <==> !AtMostOne(st.warehouses, IsSeedWarehouse)
    ensures r.Success? ==> Valid(r.value.0) && Only(r.value.0.warehouses, IsSeedWarehouse, r.value.1)
    ensures r.Success? ==> r.value.0 == st.(warehouses := r.value.0.warehouses, nextId := r.value.0.nextId)
    ensures r.Success? ==> Extends(st.warehouses, r.value.0.warehouses)
    ensures r.Success? && Exists(st.warehouses, IsSeedWarehouse) ==> r.value.0 == st
    ensures r.Success? && !Exists(st.warehouses, IsSeedWarehouse) ==>
      r.value.1 !in st.warehouses && r.value.0.warehouses == st.warehouses[r.value.1 := Warehouse(WarehouseName, WarehouseLocation)]
  {
    var f := GetOrCreate(st.warehouses, st.nextId, IsSeedWarehouse, Warehouse(WarehouseName, WarehouseLocation));
    if f.Failure? then Failure(f.error)
    else
      AddWarehouseKeepsValid(st, f.value);
      Success((st.(warehouses := f.value.table, nextId := Advance(st.nextId, f.value)), f.value.id))
  }

  /** Inserting a supplier under the next key, or keeping the table, keeps
      the store valid. */
  lemma AddSupplierKeepsValid(st: Store, f: Fetched<Supplier>)
    requires Valid(st)
    requires f.created ==> f.table == st.suppliers[st.nextId := Supplier(SupplierName)]
    requires !f.created ==> f.table == st.suppliers
    ensures Valid(st.(suppliers := f.table, nextId := Advance(st.nextId, f)))
  {
    var st' := st.(suppliers := f.table, nextId := Advance(st.nextId, f));
    assert KeysFresh(st');
    assert ProductRefsResolve(st');
  }

  /** Unique category names make the category lookup match at most one row. */
  lemma CategoryNamesAtMostOne(st: Store)
    requires UniqueNames(st)
    ensures AtMostOne(st.categories, IsSeedCategory)
  {
  }

  /** Inserting the seeded category when no category has its name, or
      keeping the table, keeps the store valid. */
  lemma AddCategoryKeepsValid(st: Store, f: Fetched<Category>)
    requires Valid(st)
    requires f.created ==> f.table == st.categories[st.nextId := Category(CategoryName)] && !Exists(st.categories, IsSeedCategory)
    requires !f.created ==> f.table == st.categories
    ensures Valid(st.(categories := f.table, nextId := Advance(st.nextId, f)))
  {
    var st' := st.(categories := f.table, nextId := Advance(st.nextId, f));
    assert KeysFresh(st');
    assert ProductRefsResolve(st');
    if f.created {
      assert UniqueNames(st') by {
        forall a | a in st.categories ensures st.categories[a].name != CategoryName {
          assert !IsSeedCategory(st.categories[a]);
        }
      }
    }
  }

  /** Inserting a warehouse under the next key, or keeping the table, keeps
      the store valid. */
  lemma AddWarehouseKeepsValid(st: Store, f: Fetched<Warehouse>)
    requires Valid(st)
    requires f.created ==> f.table == st.warehouses[st.nextId := Warehouse(WarehouseName, WarehouseLocation)]
    requires !f.created ==> f.table == st.warehouses
    ensures Valid(st.(warehouses := f.table, nextId := Advance(st.nextId, f)))
  {
    var st' := st.(warehouses := f.table, nextId := Advance(st.nextId, f));
    assert KeysFresh(st');
    assert LedgerRefsResolve(st');
  }

  /** The lookup `sku=...` of the product get-or-create. */
  function HasSku(sku: string): Product -> bool
  {
    (p: Product) => p.sku == sku
  }

  /** `id` is the one and only product with this SKU. */
  predicate OnlySku(t: map<Id, Product>, sku: string, id: Id)
  {
    id in t && t[id].sku == sku && forall other :: other in t && t[other].sku == sku ==> other == id
  }

  /** Some product has this SKU. */
  predicate HasProduct(t: map<Id, Product>, sku: string)
  {
    exists id :: id in t && t[id].sku == sku
  }

  /** `Product.objects.get_or_create(sku=..., defaults=...)`: an existing
      product is returned as it is; otherwise one is created with the
      defaults. SKUs are unique, so this never raises; the `Result` only
      mirrors the signature of `get_or_create`. */
  function FetchProduct(st: Store, item: (string, string), cat: Id, sup: Id): (r: Result<(Store, Id), LookupError>)
    requires Valid(st) && cat in st.categories && sup in st.suppliers
    ensures r.Success?
    ensures Valid(r.value.0) && OnlySku(r.value.0.products, item.0, r.value.1)
    ensures r.value.0 == st.(products := r.value.0.products, nextId := r.value.0.nextId)
    ensures Extends(st.products, r.value.0.products)
    ensures HasProduct(st.products, item.0) ==> r.value.0 == st
    ensures !HasProduct(st.products, item.0) ==>
      r.value.1 !in st.products && r.value.0.products == st.products[r.value.1 := Product(item.0, item.1, cat, Some(sup))]
  {
    SkusAtMostOne(st, item.0);
    var f := GetOrCreate(st.products, st.nextId, HasSku(item.0), Product(item.0, item.1, cat, Some(sup)));
    if f.Failure? then Failure(MultipleObjectsReturned)
    else
      var st' := st.(products := f.value.table, nextId := Advance(st.nextId, f.value));
      AddProductKeepsValid(st, f.value, Product(item.0, item.1, cat, Some(sup)));
      Success((st', f.value.id))
  }

  /** Unique SKUs make the product lookup match at most one row. */
  lemma SkusAtMostOne(st: Store, sku: string)
    requires UniqueNames(st)
    ensures AtMostOne(st.products, HasSku(sku))
  {
    forall a, b | a in st.products && b in st.products && HasSku(sku)(st.products[a]) && HasSku(sku)(st.products[b])
      ensures a == b
    {
      assert st.products[a].sku == sku == st.products[b].sku;
    }
  }

  /** Creating a product with a SKU no row has, with existing category and
      supplier, keeps the store valid. */
  lemma AddProductKeepsValid(st: Store, f: Fetched<Product>, row: Product)
    requires Valid(st)
    requires f.created ==> f.id == st.nextId && f.table == st.products[st.nextId := row]
    requires f.created ==> !Exists(st.products, HasSku(row.sku))
    requires f.created ==> row.category in st.categories && row.supplier.Some? && row.supplier.value in st.suppliers
    requires !f.created ==> f.table == st.products
    ensures Valid(st.(products := f.table, nextId := Advance(st.nextId, f)))
  {
    var st' := st.(products := f.table, nextId := Advance(st.nextId, f));
    if f.created {
      assert KeysFresh(st');
      assert ProductRefsResolve(st');
      assert LedgerRefsResolve(st');
      assert UniqueNames(st') by {
        forall a | a in st.products ensures st.products[a].sku != row.sku {
          assert !HasSku(row.sku)(st.products[a]);
        }
      }
    }
  }

  /** One pass of the loop: get-or-create the product, then create and
      apply an inbound movement of 100 for it at the seeded warehouse.
      Returns the store, the product's key and the new movement's key. */
  function SeedItem(st: Store, item: (string, string), cat: Id, sup: Id, wh: Id): (r: (Store, Id, Id))
    requires Valid(st) && cat in st.categories && sup in st.suppliers && wh in st.warehouses
    ensures Valid(r.0)
    ensures OnlySku(r.0.products, item.0, r.1)
    ensures r.0.stock == Apply(st.stock, Movement(r.1, wh, Inbound, SeedQuantity))
    ensures r.0.suppliers == st.suppliers && r.0.categories == st.categories && r.0.warehouses == st.warehouses
    ensures Extends(st.products, r.0.products)
    ensures HasProduct(st.products, item.0) ==> r.0.products == st.products
    ensures !HasProduct(st.products, item.0) ==>
      r.1 !in st.products && r.0.products == st.products[r.1 := Product(item.0, item.1, cat, Some(sup))]
    ensures r.2 !in st.movements && r.0.movements == st.movements[r.2 := Movement(r.1, wh, Inbound, SeedQuantity)]
  {
    var fetched := FetchProduct(st, item, cat, sup).value;
    var saved := SaveAndApply(fetched.0, Movement(fetched.1, wh, Inbound, SeedQuantity));
    (saved.0, fetched.1, saved.1)
  }

  /** The loop over the seeded products. */
  function SeedItems(st: Store, items: seq<(string, string)>, cat: Id, sup: Id, wh: Id): (r: Store)
    requires Valid(st) && cat in st.categories && sup in st.suppliers && wh in st.warehouses
    ensures Valid(r)
    ensures r.suppliers == st.suppliers && r.categories == st.categories && r.warehouses == st.warehouses
    ensures Extends(st.products, r.products) && Extends(st.movements, r.movements)
    ensures forall i :: i in r.movements && i !in st.movements ==>
      r.movements[i] == Movement(r.movements[i].product, wh, Inbound, SeedQuantity)
    decreases |items|
  {
    if |items| == 0 then st
    else
      var step := SeedItem(st, items[0], cat, sup, wh);
      var r := SeedItems(step.0, items[1..], cat, sup, wh);
      ExtendsTransitive(st.products, step.0.products, r.products);
      NewMovementsStep(st.movements, step.2, Movement(step.1, wh, Inbound, SeedQuantity), r.movements, wh);
      r
  }

  /** Inserting one seed receipt before a run of seed receipts still leaves
      only seed receipts among the new movements. */
  lemma NewMovementsStep(a: map<Id, Movement>, id: Id, m: Movement, c: map<Id, Movement>, wh: Id)
    requires id !in a && m == Movement(m.product, wh, Inbound, SeedQuantity)
    requires Extends(a[id := m], c)
    requires forall i :: i in c && i !in a[id := m] ==> c[i] == Movement(c[i].product, wh, Inbound, SeedQuantity)
    ensures Extends(a, c)
    ensures forall i :: i in c && i !in a ==> c[i] == Movement(c[i].product, wh, Inbound, SeedQuantity)
  {
  }

  /** Movement `i` of `s` is a seed receipt for `sku` at `wh`: an inbound
      movement of 100 of the one product with that SKU. */
  predicate Receipt(s: Store, sku: string, wh: Id, i: Id)
  {
    && i in s.movements
    && s.movements[i] == Movement(s.movements[i].product, wh, Inbound, SeedQuantity)
    && OnlySku(s.products, sku, s.movements[i].product)
  }

  /** `ids` are the movements a run of `items` added to the table `before`,
      leaving `fin`: one receipt per item, in order, under fresh and pairwise
      different keys, and no other new movement. */
  predicate ReceiptsFor(before: map<Id, Movement>, fin: Store, items: seq<(string, string)>, wh: Id, ids: seq<Id>)
  {
    && |ids| == |items|
    && (forall j :: 0 <= j < |ids| ==> ids[j] !in before && Receipt(fin, items[j].0, wh, ids[j]))
    && (forall j, j' :: 0 <= j < j' < |ids| ==> ids[j] != ids[j'])
    && (forall i :: i in fin.movements && i !in before ==> i in ids)
  }

  /** The loop creates one receipt per item and no other movement. */
  lemma {:induction false} SeedItemsReceipts(st: Store, items: seq<(string, string)>, cat: Id, sup: Id, wh: Id) returns (ids: seq<Id>)
    requires Valid(st) && cat in st.categories && sup in st.suppliers && wh in st.warehouses
    ensures ReceiptsFor(st.movements, SeedItems(st, items, cat, sup, wh), items, wh, ids)
    decreases |items|
  {
    if |items| == 0 {
      ids := [];
    } else {
      var (st1, pid, id) := SeedItem(st, items[0], cat, sup, wh);
      var fin := SeedItems(st1, items[1..], cat, sup, wh);
      assert fin == SeedItems(st, items, cat, sup, wh);
      var rest := SeedItemsReceipts(st1, items[1..], cat, sup, wh);
      ids := ReceiptsStep(st.movements, st1, fin, items, wh, pid, id, rest);
    }
  }

  /** One step of the loop: a receipt for the head item under a fresh key,
      followed by the receipts of the tail. */
  lemma ReceiptsStep(before: map<Id, Movement>, st1: Store, fin: Store, items: seq<(string, string)>, wh: Id, pid: Id, id: Id, rest: seq<Id>)
    returns (ids: seq<Id>)
    requires |items| > 0 && id !in before
    requires st1.movements == before[id := Movement(pid, wh, Inbound, SeedQuantity)]
    requires OnlySku(st1.products, items[0].0, pid)
    requires Extends(st1.products, fin.products) && Extends(st1.movements, fin.movements) && UniqueNames(fin)
    requires ReceiptsFor(st1.movements, fin, items[1..], wh, rest)
    ensures ids == [id] + rest
    ensures ReceiptsFor(before, fin, items, wh, ids)
  {
    ids := [id] + rest;
    OnlySkuExtends(st1.products, fin.products, items[0].0, pid);
    assert Receipt(fin, items[0].0, wh, id);
    forall j | 0 < j < |ids|
      ensures ids[j] !in before && Receipt(fin, items[j].0, wh, ids[j]) && ids[j] != id
    {
      assert ids[j] == rest[j - 1] && items[j] == items[1..][j - 1];
    }
  }

  /** A product that is the only one with its SKU stays so as the table
      grows, while SKUs stay unique. */
  lemma OnlySkuExtends(a: map<Id, Product>, b: map<Id, Product>, sku: string, id: Id)
    requires OnlySku(a, sku, id) && Extends(a, b)
    requires forall x, y :: x in b && y in b && b[x].sku == b[y].sku ==> x == y
    ensures OnlySku(b, sku, id)
  {
  }

  lemma ExtendsTransitive<R>(a: map<Id, R>, b: map<Id, R>, c: map<Id, R>)
    requires Extends(a, b) && Extends(b, c)
    ensures Extends(a, c)
  {
  }

  /** A valid store on which a run succeeds: at most one seeded supplier and
      at most one seeded warehouse, so neither get-or-create raises. */
  predicate Runnable(st: Store)
  {
    && Valid(st)
    && AtMostOne(st.suppliers, IsSeedSupplier)
    && AtMostOne(st.warehouses, IsSeedWarehouse)
  }

  /** One run of the command. */
  function Seed(st: Store): (r: SeedOutcome)
    requires Valid(st)
    ensures Valid(r.store)
    ensures r.Aborted? <==> !AtMostOne(st.suppliers, IsSeedSupplier) || !AtMostOne(st.warehouses, IsSeedWarehouse)
    ensures r.Aborted? ==> r.store.stock == st.stock && r.store.movements == st.movements
    ensures r.Aborted? ==> r.store.products == st.products && r.store.warehouses == st.warehouses
    ensures r.Aborted? ==> Extends(st.suppliers, r.store.suppliers) && Extends(st.categories, r.store.categories)
  {
    var s := FetchSupplier(st);
    if s.Failure? then Aborted(st, s.error)
    else
      var (st1, sup) := s.value;
      var c := FetchCategory(st1);
      if c.Failure? then Aborted(st1, MultipleObjectsReturned)
      else
        var (st2, cat) := c.value;
        var w := FetchWarehouse(st2);
        if w.Failure? then Aborted(st2, w.error)
        else
          var (st3, wh) := w.value;
          Seeded(SeedItems(st3, Items, cat, sup, wh))
  }

  /** Some item of the list has this SKU. */
  predicate Listed(items: seq<(string, string)>, sku: string)
    decreases |items|
  {
    |items| > 0 && (items[0].0 == sku || Listed(items[1..], sku))
  }

  /** No SKU appears twice in the list. */
  predicate DistinctSkus(items: seq<(string, string)>)
    decreases |items|
  {
    |items| == 0 || (!Listed(items[1..], items[0].0) && DistinctSkus(items[1..]))
  }

  /** The stock rows the loop feeds: a product with one of the SKUs at `wh`. */
  predicate FedBy(s: Store, items: seq<(string, string)>, wh: Id, k: Pair)
  {
    k.1 == wh && k.0 in s.products && Listed(items, s.products[k.0].sku)
  }

  /** The loop adds exactly 100 to each (seeded product, warehouse) row and
      leaves every other row, and the set of other rows, as it was. */
  lemma {:induction false} SeedItemsStock(st: Store, items: seq<(string, string)>, cat: Id, sup: Id, wh: Id, k: Pair)
    requires Valid(st) && cat in st.categories && sup in st.suppliers && wh in st.warehouses
    requires DistinctSkus(items)
    ensures var fin := SeedItems(st, items, cat, sup, wh);
      && OnHand(fin.stock, k) == OnHand(st.stock, k) + (if FedBy(fin, items, wh, k) then SeedQuantity else 0)
      && (k in fin.stock <==> k in st.stock || FedBy(fin, items, wh, k))
    decreases |items|
  {
    if |items| > 0 {
      var (st1, pid, _) := SeedItem(st, items[0], cat, sup, wh);
      var rest := items[1..];
      var fin := SeedItems(st1, rest, cat, sup, wh);
      assert fin == SeedItems(st, items, cat, sup, wh);
      SeedItemsStock(st1, rest, cat, sup, wh, k);
      ApplyFrame(st.stock, Movement(pid, wh, Inbound, SeedQuantity), k);
      assert pid in fin.products && fin.products[pid].sku == items[0].0;
      SeedItemsStockStep(fin, items, wh, pid, k);
    }
  }

  /** The case split of one step of the loop: a pair is fed by the whole list
      iff it is the head product's pair or is fed by the tail, never both. */
  lemma SeedItemsStockStep(fin: Store, items: seq<(string, string)>, wh: Id, pid: Id, k: Pair)
    requires |items| > 0 && UniqueNames(fin)
    requires DistinctSkus(items)
    requires pid in fin.products && fin.products[pid].sku == items[0].0
    ensures FedBy(fin, items, wh, k) <==> k == (pid, wh) || FedBy(fin, items[1..], wh, k)
    ensures k == (pid, wh) ==> !FedBy(fin, items[1..], wh, k)
  {
  }

  /** The three seeded SKUs are pairwise different. */
  lemma ItemsDistinct()
    ensures DistinctSkus(Items)
  {
    var s1, s2, s3 := Items[0].0, Items[1].0, Items[2].0;
    assert s1[6] == '1' && s2[6] == '2' && s3[6] == '3';
    assert s1 != s2 && s1 != s3 && s2 != s3;
    var t1 := Items[1..];
    var t2 := t1[1..];
    assert t1[0].0 == s2 && t2[0].0 == s3 && t2[1..] == [];
    assert !Listed(t2[1..], s3) && !Listed(t2[1..], s2) && !Listed(t2[1..], s1);
    assert !Listed(t2, s2) && !Listed(t2, s1);
    assert !Listed(t1, s1);
  }

  /** The pairs a successful run feeds: a product with a seeded SKU at the
      seeded warehouse. */
  predicate SeedPair(s: Store, k: Pair)
  {
    k.0 in s.products && Listed(Items, s.products[k.0].sku)
    && k.1 in s.warehouses && IsSeedWarehouse(s.warehouses[k.1])
  }

  /** A successful run adds exactly 100 to the stock of each seeded SKU at
      the seeded warehouse, and touches no other pair. */
  lemma SeedStock(st: Store, k: Pair)
    requires Runnable(st)
    ensures OnHand(Seed(st).store.stock, k) == OnHand(st.stock, k) + (if SeedPair(Seed(st).store, k) then SeedQuantity else 0)
    ensures k in Seed(st).store.stock <==> k in st.stock || SeedPair(Seed(st).store, k)
  {
    var (st1, sup) := FetchSupplier(st).value;
    var (st2, cat) := FetchCategory(st1).value;
    var (st3, wh) := FetchWarehouse(st2).value;
    assert Seed(st) == Seeded(SeedItems(st3, Items, cat, sup, wh));
    ItemsDistinct();
    SeedItemsStock(st3, Items, cat, sup, wh, k);
    var fin := Seed(st).store;
    assert Only(fin.warehouses, IsSeedWarehouse, wh);
    assert FedBy(fin, Items, wh, k) == SeedPair(fin, k);
  }

  /** A successful run creates exactly three movements: one inbound receipt
      of 100 per seeded SKU, at the seeded warehouse, under fresh keys. */
  lemma SeedReceipts(st: Store) returns (wh: Id, ids: seq<Id>)
    requires Runnable(st)
    ensures Only(Seed(st).store.warehouses, IsSeedWarehouse, wh)
    ensures ReceiptsFor(st.movements, Seed(st).store, Items, wh, ids)
  {
    var (st1, sup) := FetchSupplier(st).value;
    var (st2, cat) := FetchCategory(st1).value;
    var st3;
    st3, wh := FetchWarehouse(st2).value.0, FetchWarehouse(st2).value.1;
    assert Seed(st) == Seeded(SeedItems(st3, Items, cat, sup, wh));
    ids := SeedItemsReceipts(st3, Items, cat, sup, wh);
  }

  /** Every product in `after` but not in `before` has a listed SKU. */
  predicate NewSkusListed(before: map<Id, Product>, after: map<Id, Product>, items: seq<(string, string)>)
  {
    forall id :: id in after && id !in before ==> Listed(items, after[id].sku)
  }

  /** Every product the loop creates has one of the listed SKUs. */
  lemma {:induction false} SeedItemsNewProducts(st: Store, items: seq<(string, string)>, cat: Id, sup: Id, wh: Id)
    requires Valid(st) && cat in st.categories && sup in st.suppliers && wh in st.warehouses
    ensures NewSkusListed(st.products, SeedItems(st, items, cat, sup, wh).products, items)
    decreases |items|
  {
    if |items| > 0 {
      var (st1, pid, _) := SeedItem(st, items[0], cat, sup, wh);
      var fin := SeedItems(st1, items[1..], cat, sup, wh);
      assert fin == SeedItems(st, items, cat, sup, wh);
      SeedItemsNewProducts(st1, items[1..], cat, sup, wh);
      NewRowsMatch(st.products, st1.products, pid, Product(items[0].0, items[0].1, cat, Some(sup)), HasSku(items[0].0));
      NewSkusStep(st.products, st1.products, fin.products, items);
    }
  }

  /** One step of the loop: the head item adds only products with its SKU,
      and the tail only products with the tail's SKUs. */
  lemma NewSkusStep(a: map<Id, Product>, b: map<Id, Product>, c: map<Id, Product>, items: seq<(string, string)>)
    requires |items| > 0
    requires forall id :: id in b && id !in a ==> HasSku(items[0].0)(b[id])
    requires Extends(b, c) && NewSkusListed(b, c, items[1..])
    ensures NewSkusListed(a, c, items)
  {
    forall id | id in c && id !in a
      ensures Listed(items, c[id].sku)
    {
      if id in b {
        assert c[id] == b[id] && b[id].sku == items[0].0;
      }
    }
  }

  /** A successful run keeps every existing master row and adds only seeded
      rows: the default supplier, the "General" category, the seeded
      warehouse and products with the seeded SKUs. */
  lemma SeedAddsOnlySeedRows(st: Store)
    requires Runnable(st)
    ensures var fin := Seed(st).store;
      && Extends(st.suppliers, fin.suppliers) && Extends(st.categories, fin.categories)
      && Extends(st.warehouses, fin.warehouses) && Extends(st.products, fin.products)
      && (forall id :: id in fin.suppliers && id !in st.suppliers ==> IsSeedSupplier(fin.suppliers[id]))
      && (forall id :: id in fin.categories && id !in st.categories ==> IsSeedCategory(fin.categories[id]))
      && (forall id :: id in fin.warehouses && id !in st.warehouses ==> IsSeedWarehouse(fin.warehouses[id]))
      && NewSkusListed(st.products, fin.products, Items)
  {
    var st3, sup, cat, wh := SeedMasterSteps(st);
    SeedItemsNewProducts(st3, Items, cat, sup, wh);
  }

  /** The three master-data lookups of a successful run: each keeps its
      table or adds its one seeded row, and the product loop then starts
      from the resulting store `st3`. */
  lemma SeedMasterSteps(st: Store) returns (st3: Store, sup: Id, cat: Id, wh: Id)
    requires Runnable(st)
    ensures Valid(st3) && cat in st3.categories && sup in st3.suppliers && wh in st3.warehouses
    ensures Seed(st) == Seeded(SeedItems(st3, Items, cat, sup, wh))
    ensures st3.products == st.products
    ensures Extends(st.suppliers, st3.suppliers) && Extends(st.categories, st3.categories) && Extends(st.warehouses, st3.warehouses)
    ensures forall id :: id in st3.suppliers && id !in st.suppliers ==> IsSeedSupplier(st3.suppliers[id])
    ensures forall id :: id in st3.categories && id !in st.categories ==> IsSeedCategory(st3.categories[id])
    ensures forall id :: id in st3.warehouses && id !in st.warehouses ==> IsSeedWarehouse(st3.warehouses[id])
  {
    var (st1, sup1) := FetchSupplier(st).value;
    var (st2, cat2) := FetchCategory(st1).value;
    var w := FetchWarehouse(st2).value;
    st3, sup, cat, wh := w.0, sup1, cat2, w.1;
    assert Seed(st) == Seeded(SeedItems(st3, Items, cat, sup, wh));
    NewRowsMatch(st.suppliers, st1.suppliers, sup, Supplier(SupplierName), IsSeedSupplier);
    NewRowsMatch(st1.categories, st2.categories, cat, Category(CategoryName), IsSeedCategory);
    NewRowsMatch(st2.warehouses, st3.warehouses, wh, Warehouse(WarehouseName, WarehouseLocation), IsSeedWarehouse);
  }

  /** A get-or-create either keeps the table or adds the one matching row. */
  lemma NewRowsMatch<R>(t: map<Id, R>, t': map<Id, R>, id: Id, row: R, matches: R -> bool)
    requires t' == t || (id !in t && t' == t[id := row])
    requires matches(row)
    ensures Extends(t, t')
    ensures forall i :: i in t' && i !in t ==> matches(t'[i])
  {
  }

  /** After the loop every listed SKU has a product. */
  lemma {:induction false} SeedItemsListed(st: Store, items: seq<(string, string)>, cat: Id, sup: Id, wh: Id, sku: string)
    requires Valid(st) && cat in st.categories && sup in st.suppliers && wh in st.warehouses
    requires Listed(items, sku)
    ensures HasProduct(SeedItems(st, items, cat, sup, wh).products, sku)
    decreases |items|
  {
    var (st1, pid, _) := SeedItem(st, items[0], cat, sup, wh);
    var fin := SeedItems(st1, items[1..], cat, sup, wh);
    assert fin == SeedItems(st, items, cat, sup, wh);
    if items[0].0 == sku {
      assert pid in fin.products && fin.products[pid].sku == sku;
    } else {
      SeedItemsListed(st1, items[1..], cat, sup, wh, sku);
    }
  }

  /** When every listed SKU already has a product, the loop creates none. */
  lemma {:induction false} SeedItemsKeepsProducts(st: Store, items: seq<(string, string)>, cat: Id, sup: Id, wh: Id)
    requires Valid(st) && cat in st.categories && sup in st.suppliers && wh in st.warehouses
    requires forall sku :: Listed(items, sku) ==> HasProduct(st.products, sku)
    ensures SeedItems(st, items, cat, sup, wh).products == st.products
    decreases |items|
  {
    if |items| > 0 {
      assert Listed(items, items[0].0);
      var st1 := SeedItem(st, items[0], cat, sup, wh).0;
      assert forall sku :: Listed(items[1..], sku) ==> Listed(items, sku);
      SeedItemsKeepsProducts(st1, items[1..], cat, sup, wh);
    }
  }

  /** What a successful run establishes: a valid store with exactly one
      default supplier, one default category, one seeded warehouse, and
      exactly one product per seeded SKU. */
  ghost predicate AlreadySeeded(s: Store)
  {
    && Valid(s)
    && (exists id :: Only(s.suppliers, IsSeedSupplier, id))
    && (exists id :: Only(s.categories, IsSeedCategory, id))
    && (exists id :: Only(s.warehouses, IsSeedWarehouse, id))
    && (forall sku :: Listed(Items, sku) ==> exists id :: OnlySku(s.products, sku, id))
  }

  /** A successful run, from any valid store, leaves exactly one row of each
      seeded record: get-or-create never duplicates. */
  lemma SeedEstablishes(st: Store)
    requires Runnable(st)
    ensures AlreadySeeded(Seed(st).store)
  {
    var (st1, sup) := FetchSupplier(st).value;
    var (st2, cat) := FetchCategory(st1).value;
    var (st3, wh) := FetchWarehouse(st2).value;
    var fin := SeedItems(st3, Items, cat, sup, wh);
    assert Seed(st) == Seeded(fin);
    assert Only(fin.suppliers, IsSeedSupplier, sup);
    assert Only(fin.categories, IsSeedCategory, cat);
    assert Only(fin.warehouses, IsSeedWarehouse, wh);
    forall sku | Listed(Items, sku)
      ensures exists id :: OnlySku(fin.products, sku, id)
    {
      SeedItemsListed(st3, Items, cat, sup, wh, sku);
      var id :| id in fin.products && fin.products[id].sku == sku;
      assert OnlySku(fin.products, sku, id);
    }
  }

  /** On a seeded store the three master-data lookups find their rows and
      change nothing, so the run goes straight to the product loop. */
  lemma SeedOnSeeded(s: Store) returns (sup: Id, cat: Id, wh: Id)
    requires AlreadySeeded(s)
    ensures cat in s.categories && sup in s.suppliers && wh in s.warehouses
    ensures Seed(s) == Seeded(SeedItems(s, Items, cat, sup, wh))
  {
    var sup0 :| Only(s.suppliers, IsSeedSupplier, sup0);
    var cat0 :| Only(s.categories, IsSeedCategory, cat0);
    var wh0 :| Only(s.warehouses, IsSeedWarehouse, wh0);
    assert AtMostOne(s.suppliers, IsSeedSupplier) && Exists(s.suppliers, IsSeedSupplier);
    assert AtMostOne(s.warehouses, IsSeedWarehouse) && Exists(s.warehouses, IsSeedWarehouse);
    assert Exists(s.categories, IsSeedCategory);
    var st1;
    st1, sup := FetchSupplier(s).value.0, FetchSupplier(s).value.1;
    assert st1 == s;
    var st2;
    st2, cat := FetchCategory(st1).value.0, FetchCategory(st1).value.1;
    assert st2 == s;
    var st3;
    st3, wh := FetchWarehouse(st2).value.0, FetchWarehouse(st2).value.1;
    assert st3 == s;
  }

  /** Running the command on a store it has already seeded succeeds and
      leaves the master data exactly as it was. */
  lemma SeedIdempotentOnMasterData(s: Store)
    requires AlreadySeeded(s)
    ensures Seed(s).Seeded?
    ensures SameMasterData(s, Seed(s).store)
  {
    var sup, cat, wh := SeedOnSeeded(s);
    OnlySkuHasProduct(s.products);
    SeedItemsKeepsProducts(s, Items, cat, sup, wh);
  }

  lemma OnlySkuHasProduct(t: map<Id, Product>)
    requires forall sku :: Listed(Items, sku) ==> exists id :: OnlySku(t, sku, id)
    ensures forall sku :: Listed(Items, sku) ==> HasProduct(t, sku)
  {
    forall sku | Listed(Items, sku) ensures HasProduct(t, sku) {
      var id :| OnlySku(t, sku, id);
      assert t[id].sku == sku;
    }
  }

  /** Being seeded depends only on the master data. */
  lemma AlreadySeededKeptByMasterData(a: Store, b: Store)
    requires AlreadySeeded(a) && Valid(b) && SameMasterData(a, b)
    ensures AlreadySeeded(b)
  {
  }

  /** `n` consecutive runs of the command, stopping at the first that raises. */
  function SeedRuns(st: Store, n: nat): (r: SeedOutcome)
    requires Valid(st)
    ensures Valid(r.store)
    decreases n
  {
    if n == 0 then Seeded(st)
    else
      var first := Seed(st);
      if first.Aborted? then first else SeedRuns(first.store, n - 1)
  }

  /** A run that does not raise hands its store on to the remaining runs. */
  lemma SeedRunsUnfold(st: Store, n: nat)
    requires Runnable(st) && n > 0
    ensures SeedRuns(st, n) == SeedRuns(Seed(st).store, n - 1)
  {
  }

  /** One more run on a seeded store: the master data stays, and each seeded
      pair gains 100 while every other pair stays put. */
  lemma SeedAgain(s: Store, k: Pair)
    requires AlreadySeeded(s)
    ensures Seed(s).Seeded? && AlreadySeeded(Seed(s).store)
    ensures SameMasterData(s, Seed(s).store)
    ensures OnHand(Seed(s).store.stock, k) == OnHand(s.stock, k) + (if SeedPair(s, k) then SeedQuantity else 0)
  {
    SeedIdempotentOnMasterData(s);
    AlreadySeededKeptByMasterData(s, Seed(s).store);
    SeedStock(s, k);
    SeedPairOnMasterData(Seed(s).store, s, k);
  }

  /** The seed is idempotent for master data but not for stock: on a seeded
      store, n further runs keep the master data and add 100 per run to each
      seeded pair, and nothing to any other pair. */
  lemma RepeatedSeed(s: Store, n: nat, k: Pair)
    requires AlreadySeeded(s)
    ensures SeedRuns(s, n).Seeded?
    ensures SameMasterData(s, SeedRuns(s, n).store)
    ensures OnHand(SeedRuns(s, n).store.stock, k) == OnHand(s.stock, k) + (if SeedPair(s, k) then n * SeedQuantity else 0)
    decreases n
  {
    if n > 0 {
      var s1 := FirstRun(s, n, k);
      RepeatedSeed(s1, n - 1, k);
      assert (n - 1) * SeedQuantity + SeedQuantity == n * SeedQuantity;
    }
  }

  /** The first of n runs on a seeded store, named: its store is seeded,
      carries the same master data, and the remaining runs start from it. */
  lemma FirstRun(s: Store, n: nat, k: Pair) returns (s1: Store)
    requires AlreadySeeded(s) && n > 0
    ensures AlreadySeeded(s1) && SameMasterData(s, s1)
    ensures SeedRuns(s, n) == SeedRuns(s1, n - 1)
    ensures SeedPair(s1, k) == SeedPair(s, k)
    ensures OnHand(s1.stock, k) == OnHand(s.stock, k) + (if SeedPair(s, k) then SeedQuantity else 0)
  {
    SeedAgain(s, k);
    s1 := Seed(s).store;
    SeedRunsUnfold(s, n);
    SeedPairOnMasterData(s1, s, k);
  }

  /** Which pairs a run feeds depends only on the master data. */
  lemma SeedPairOnMasterData(a: Store, b: Store, k: Pair)
    requires SameMasterData(a, b)
    ensures SeedPair(a, k) == SeedPair(b, k)
  {
  }

  /** The first of m + 1 runs from any valid store on which the command
      succeeds, named: it leaves a seeded store from which the other m runs
      start. */
  lemma FirstRunFrom(st: Store, m: nat, k: Pair) returns (s1: Store)
    requires Runnable(st)
    ensures AlreadySeeded(s1)
    ensures SeedRuns(st, m + 1) == SeedRuns(s1, m)
    ensures OnHand(s1.stock, k) == OnHand(st.stock, k) + (if SeedPair(s1, k) then SeedQuantity else 0)
  {
    s1 := Seed(st).store;
    SeedStock(st, k);
    SeedEstablishes(st);
    SeedRunsUnfold(st, m + 1);
  }

  /** m + 1 runs from a valid store on which the first run succeeds: every
      run succeeds, the store ends up seeded, and each seeded pair has gained
      100 per run while every other pair is untouched. */
  lemma RunsAfterFirst(st: Store, m: nat, k: Pair) returns (last: Store)
    requires Runnable(st)
    ensures SeedRuns(st, m + 1) == Seeded(last)
    ensures AlreadySeeded(last)
    ensures OnHand(last.stock, k) == OnHand(st.stock, k) + (if SeedPair(last, k) then (m + 1) * SeedQuantity else 0)
  {
    var s1 := FirstRunFrom(st, m, k);
    RepeatedSeed(s1, m, k);
    last := SeedRuns(s1, m).store;
    AlreadySeededKeptByMasterData(s1, last);
    SeedPairOnMasterData(last, s1, k);
    assert m * SeedQuantity + SeedQuantity == (m + 1) * SeedQuantity;
  }

  /** From an empty database, m + 1 runs leave one row per seeded record and
      100 * (m + 1) units of each seeded SKU at the seeded warehouse, and no
      stock anywhere else. */
  lemma SeedFromEmpty(m: nat, k: Pair)
    ensures SeedRuns(EmptyStore, m + 1).Seeded?
    ensures AlreadySeeded(SeedRuns(EmptyStore, m + 1).store)
    ensures OnHand(SeedRuns(EmptyStore, m + 1).store.stock, k)
         == (if SeedPair(SeedRuns(EmptyStore, m + 1).store, k) then (m + 1) * SeedQuantity else 0)
  {
    EmptyStoreValid();
    var last := RunsAfterFirst(EmptyStore, m, k);
  }
}
